=== FILE: README.md ===
# Cat-mage runner: a Dafny model of the game rules

This project models the state-update rules of the browser game in
`js/game.js`: a player sprite at the bottom of a container dodges falling
obstacles (asteroids) and collects falling items (cosmonauts). The rules
are the difficulty controller (`increaseDifficulty`, `resetGameSettings`,
`getRandomDelay`), the spawner (`isPositionValid`, `createObstacle`,
`createItem`, `spawnObstacles`, `spawnItems`), the motion and collision
engine (`moveObjects`, `checkCollision`), the player controller
(`updatePlayerPosition`, the key and touch handlers), and the session
state (`startGame`, `resetGame`, the high-score update in
`showGameOverScreen`).

Modules, one per component:

- `Draws`: `Math.floor(Math.random() * n)`, `Math.min` and `Math.max`. Each draw is a parameter `u` with `0 <= u < 1`.
- `Difficulty`: the `gameSettings` record. `Scheduled(n, _)` is the closed form of the settings after `n` difficulty steps.
- `Spawner`: entities as `(x, top)` pairs, the placement rule and the population cap.
- `Motion`: `moveObjects` and `checkCollision`.
- `Controls`: `playerSettings` and the input handlers.
- `Session`: the global game state and one `Step` per callback. `Run` folds `Step` over any sequence of callbacks.

Modelling choices:

- Speeds, creation chances, tops and the player's x are exact `real`s. An entity's x is an `int`, because it comes from `Math.floor`. Element sizes are `int`s, because `offsetWidth` is an integer.
- `parseInt(style.top)` inside `isPositionValid` truncates toward zero (`ParsePx`). Every top is a multiple of 0.5, so it is never printed in exponent form.
- The placement loop retries with no bound. Here it is `Place` over a finite list of draws. `None` means every supplied draw was rejected, which is the point where the game would keep drawing.
- `moveObjects` is modelled as written. Each `forEach` walks a fixed array while its callback calls `splice(index, 1)` on the array the variable names. After an item is collected, `filter` makes the variable name a new array. `Motion.Pass` keeps both arrays as lists of entity identities (positions at the start of the pass), plus whether they are still one array.
- The game has no phase variable, and its spawn loops keep running after a game ends. So `Session.Step` accepts every callback at every moment. The invariants proved for `Run` hold for every order of timer and input callbacks.
- `PlayPressed` is `startGame` without its two direct calls of `spawnObstacles` and `spawnItems`. Those calls are `SpawnTimer` events that follow it in the run.
- The collision test uses the player's box from the model: its left edge is `x`, and its top and size are `Layout` parameters. Every write of `x` in the game is followed by a write of `style.left`, so the rendered left edge equals `x`. Boxes are measured from the container's corner. `Layout` also says where that corner sits in the viewport.
- `endGame` calls `playDeathAnimation`, which hides the player with `display = "none"` at once, while `forEach` is still walking. `Session.Game` and `Motion.Pass` keep that as a flag. While the player is hidden, `getBoundingClientRect` gives a box of zero size at the viewport's origin, and the collision test runs against that box. `player.offsetWidth` is then 0, so the right-hand limit is the full container width. `startGame` (through `resetPlayerPosition`) and `resetGame` show the player again.

Behaviours of the code that the model keeps:

- The keyboard step only guards, with `x > 0` and `x < limit`; it does not clamp. It can put the player up to one step outside `[0, limit]` in two ways: a touch drag leaves `x` off the grid of 5-unit steps (`Controls.KeyboardOvershoots` gives an input), or the limit itself is off that grid. For example, from x = 350 moving right with limit 352, the step gives 355. `Controls.KeyboardOnGridStaysInside` shows that with both on the grid the player stays inside. `Session.RunKeepsNearView` proves the bound that does hold.
- `splice` inside `forEach` skips the entity after a removed one (`Motion.SpliceSkipsNext`).
- After a collected item, a later `splice` removes the wrong item (`Motion.StaleSpliceDropsWrongItem`).
- Once the first `endGame` hides the player, further overlapping obstacles in that frame call nothing (`Motion.EndGameOnce`), and the item pass collects nothing (`Session.DeathFrameCollectsNothing`). The frame that ends the game moves the player against the full container width (`Session.DeathFrameStepsPastLimit`).
- "Play again" shows the player where it was. A drag while it was hidden can leave it past the shown player's limit until the delayed `startGame` (`Session.PlayAgainShowsStalePosition`).
- There are no Idle/Running/Dying/GameOver phases.

## Model

| member | source | states |
|---|---|---|
| `Draws.Scale` | js/game.js:122 | `Math.floor(u * n)` of a random draw lies in `0 .. n-1` when `n >= 1` |
| `Draws.ScaleReaches` | js/game.js:295 | every integer below `n` comes from some draw, so scaling loses no outcome |
| `Difficulty.RaiseChance` | js/game.js:279-286 | a creation chance after a step is at most 0.5, never lower than a chance at or below 0.5, and exactly 0.05 higher while that stays within 0.5 |
| `Difficulty.ShortenDelay` | js/game.js:288-291 | the longest spawn delay drops by 100 ms but never below 500 ms |
| `Difficulty.Reset` | js/game.js:265-272 | `resetGameSettings` puts the settings at level 1 of the closed-form schedule and keeps `maxObjects` |
| `Difficulty.IncreaseDifficulty` | js/game.js:274-292 | level +1, both speeds +0.5, chances raised with a cap, longest delay shortened with a floor, shortest delay and `maxObjects` unchanged |
| `Difficulty.RaisedFromReset` | js/game.js:265-292 | after a reset and `n` steps the settings equal the closed form: speed `2 + 0.5n`, chance `min(0.5, 0.2 + 0.05n)`, longest delay `max(500, 2000 - 100n)`, level `n + 1` |
| `Difficulty.ScheduleMonotone` | js/game.js:274-292 | along the schedule speeds grow strictly, chances grow within [0.2, 0.5], and the longest delay shrinks within [500, 2000] |
| `Difficulty.RandomDelay` | js/game.js:294-296 | `getRandomDelay(min, max)` lies in `[min, max]` when `min <= max` |
| `Difficulty.RandomDelayCovers` | js/game.js:294-296 | every delay in `[min, max]` is drawn by some random value |
| `Spawner.ParsePx` | js/game.js:106-107 | `parseInt` of a top edge truncates it toward zero |
| `Spawner.Clear` | js/game.js:105-112 | the front-to-back scan with early exit is true exactly when no entity crowds the point |
| `Spawner.IsPositionValid` | js/game.js:104-113 | false exactly when some obstacle or item has `abs(x - objX) < buffer` and `abs(y - objY) < buffer` |
| `Spawner.DrawX` | js/game.js:122 | a drawn x lies in `[0, width - 40)` when the container is wider than 40 |
| `Spawner.Place` | js/game.js:121-123 | the first draw whose position is valid is chosen; it fails only when every supplied draw is rejected |
| `Spawner.Create` | js/game.js:115-148 | at `maxObjects / 2` entities of the kind it changes nothing; otherwise it appends exactly one entity at top -30 with a valid x in range; the other kind is untouched; a kind never passes 15 when `maxObjects` is 30 |
| `Motion.OverlapsIffSharedPoint` | js/game.js:182-187 | the strict box test holds exactly when the two open boxes share a point, so boxes that only touch do not collide |
| `Motion.CheckCollision` | js/game.js:178-220 | no overlap with the box the player has now changes nothing; an overlapping obstacle adds one `endGame` call and hides the player; an overlapping item adds 1 to the score and removes exactly that item from the current array |
| `Motion.Splice` | js/game.js:156 | `splice(index, 1)` drops position `k`, or nothing when `k` is past the end; no identity is added, order is kept, and on an increasing list exactly the identity at `k` goes |
| `Motion.Without` | js/game.js:193 | `filter(item => item !== object)` keeps exactly the other identities |
| `Motion.Visit` | js/game.js:152-175 | an entity below the container is spliced out at the walked index in place, so the two arrays stay one or stay apart, and it removes that entity itself only while they are one; any other falls by the speed and then obeys the collision rules against the player's current box, where only a collected item splits the arrays; the player ends hidden exactly when it was or `endGame` was called |
| `Motion.ForEach` | js/game.js:152-162 | the walk keeps the arrays well formed; the score and `endGame` count grow by at most one per index walked; the player ends hidden exactly when it was or `endGame` was called |
| `Motion.MoveKind` | js/game.js:150-176 | a pass never grows its collection; an obstacle pass changes no score and an item pass calls no `endGame`; the player ends hidden exactly when it began hidden or `endGame` was called |
| `Motion.OnScreenPass` | js/game.js:150-220 | when nothing starts below the container, every entity falls by its speed once; obstacles all stay; with the player shown, `endGame` is called exactly when some obstacle overlaps, and only once when no obstacle meets the hidden box; exactly the items that do not overlap the box the player had at the start stay, in order, and the score grows by the number collected |
| `Motion.QuietPass` | js/game.js:150-176 | with nothing below the container and nothing overlapping the player's current box, a pass only moves every entity down by its speed |
| `Motion.SpliceSkipsNext` | js/game.js:152-162 | of two consecutive obstacles below the container, only the first is removed; the second is skipped and stays |
| `Motion.EndGameOnce` | js/game.js:178-220 | two obstacles overlapping the shown player in one pass call `endGame` once, because the first call hides the player |
| `Motion.StaleSpliceDropsWrongItem` | js/game.js:164-175 | after an item is collected, an item below the container removes the next item from the array instead of itself |
| `Controls.ResetPosition` | js/game.js:259-263 | the player returns to x = 180; key and touch state survive |
| `Controls.KeyDown` | js/game.js:339-342 | the arrow keys set their direction flag and nothing else changes |
| `Controls.KeyUp` | js/game.js:344-347 | the arrow keys clear their direction flag and nothing else changes |
| `Controls.StepLeft` | js/game.js:92-94 | the left step subtracts the speed only when moving left with `x > 0` |
| `Controls.StepRight` | js/game.js:95-100 | the right step adds the speed only when moving right with `x < limit` |
| `Controls.UpdatePosition` | js/game.js:91-102 | only x changes; one key held takes its guarded step; with both held the right guard tests the x the left step left, so the steps cancel unless a guard fails |
| `Controls.KeyboardStaysNearView` | js/game.js:91-102 | a position less than one step outside `[0, limit]` stays so after the keyboard step |
| `Controls.KeyboardOnGridStaysInside` | js/game.js:91-102 | on the grid of 5-unit steps, with the limit on it, the keyboard step keeps x in `[0, limit]` and on the grid |
| `Controls.KeyboardOvershoots` | js/game.js:92-94 | from x = 3 moving left, the step lands at -2, outside the container |
| `Controls.TouchStart` | js/game.js:349-352 | a touch becomes active and remembers its x |
| `Controls.Clamp` | js/game.js:359-362 | the clamp lands in `[0, limit]`, leaves values already inside unchanged, sends values below 0 to 0 and values past the limit to the limit, and gives 0 when the limit is negative |
| `Controls.TouchMove` | js/game.js:354-366 | with no active touch nothing changes; otherwise x moves by the finger's movement, lands on the edge it would cross, and the last touch x is updated |
| `Controls.TouchEnd` | js/game.js:368-370 | the touch becomes inactive and nothing else changes |
| `Controls.DragFollowsFinger` | js/game.js:354-366 | while no edge is reached, a drag moves the player by the finger's total movement since the touch began |
| `Session.StartGame` | js/game.js:45-51 | score 0, both collections empty, player shown at x 180, settings at level 1 (speeds 2, chances 0.2, delays 500 to 2000); the high score is kept |
| `Session.StartGameForgetsSession` | js/game.js:45-51 | two states that differ only in the finished session start the same new session |
| `Session.ResetGame` | js/game.js:69-82 | "play again" empties both collections at once and shows the player where it was; nothing else changes |
| `Session.MoveObjects` | js/game.js:150-176 | a frame never grows a collection; the score grows by at most the number of items; `endGame` runs at most once per obstacle; the player ends hidden exactly when it was or `endGame` was called |
| `Session.Tick` | js/game.js:64-102 | a frame is `moveObjects` (its collections, score and `endGame` calls) followed by the keyboard step against the limit the player's width gives after `moveObjects`; settings and high score are unchanged; the player is hidden afterwards exactly when it was or `endGame` was called |
| `Session.QuietTick` | js/game.js:150-196 | a frame with nothing below the container and no overlap with the player's current box only moves every entity down |
| `Session.ObstacleHitEndsGame` | js/game.js:150-220 | with the player shown and no obstacle below the container, `endGame` is called, and the player hidden, exactly when some obstacle overlaps; with the obstacles right of the viewport's origin, it is called once if any overlaps and not at all otherwise |
| `Session.DeathFrameCollectsNothing` | js/game.js:150-220 | in the frame whose obstacle pass ends the game, no item right of the viewport's origin is collected and the score stays as it was |
| `Session.DeathFrameStepsPastLimit` | js/game.js:91-102 | in the frame that ends the game the right step is tested against the full container width: from 354 with the shown limit 350 it goes to 359 |
| `Session.RaiseDifficulty` | js/game.js:274-292 | the difficulty tick changes only the settings |
| `Session.Spawn` | js/game.js:298-322 | a draw at or above the chance changes nothing; a draw below it gives the population `createObstacle` or `createItem` gives, so one more entity of the kind below the cap; a spawn never touches the other kind; the next delay lies in the delay range |
| `Session.RecordHighScore` | js/game.js:209-213 | the high score becomes the score only when the score is strictly higher, so it never decreases |
| `Session.ShowGameOver` | js/game.js:204-215 | the game-over reveal changes only the high score |
| `Session.HighScoreIsBest` | js/game.js:209-213 | after any run of sessions the high score is the largest of the stored value and the session scores |
| `Session.LoadIsWf` | js/game.js:11-35 | the state at load satisfies the invariant |
| `Session.RunKeepsWf` | js/game.js:115-148 | for every order of callbacks, the settings stay on the difficulty schedule at their level and no kind holds more than 15 entities |
| `Session.RunKeepsHighScore` | js/game.js:209-213 | for every order of callbacks the high score never decreases |
| `Session.RunKeepsInContainer` | js/game.js:91-102 | for every order of callbacks, in a container wide enough for the start column, the player never gets a full step outside the container |
| `Session.PlayAgainShowsStalePosition` | js/game.js:69-89 | a drag while the player is hidden can take it to the container's edge, and "play again" shows it there, past the shown player's limit |
| `Session.RunKeepsNearView` | js/game.js:91-102 | for every order of callbacks without "play again", in a container wide enough for the start column, the player never gets a full step outside `[0, limit]`, the limit being the one the player's current width gives |

## Left out

- DOM work is not modelled: creating and removing elements, writing `style` strings, showing and hiding panels, and `getBoundingClientRect`. Element sizes are `Layout` parameters. The layout stays the same for a whole run.
- Timers are not modelled: `setInterval`, `setTimeout`, `clearInterval`, the three-frame death animation and the 500 ms restart delay. Each timer callback is an event of `Session.Step`, and events can come in any order.
- Of `endGame` and `playDeathAnimation`, only the hiding of the player is modelled. Clearing the intervals, the explosion images and `currentFrame` are left out, because they touch only timers and images. `endGame` calls are counted.
- `localStorage` is not modelled. The stored high score is a plain integer. A missing or non-numeric stored value is left out.
- `Math.random()` is a parameter. The placement loop has no bound in the game; here it runs over a finite list of draws.
- IEEE rounding is left out. Speeds and tops are exact in binary, but `0.2 + 0.05k` is not. The model uses exact reals.
- A play button that fires both `click` and `touchstart`, and so starts two loops, is left out. So are the overlapping death animations that repeated `endGame` calls would start. Those calls happen only when an entity meets the hidden player's box.
- Scrolling is left out: the container's place in the viewport is fixed for a run.
- app/src/main/java/runner/shahovyi/WebViewActivity.java is not part of this model. It is Android WebView setup and asset copying.
- Motion.ForEach: its contract only bounds the walk. The exact result is stated by `Motion.OnScreenPass` for passes where nothing starts below the container, and each step by `Motion.Visit`. Walks with removals are described by the concrete lemmas.
- Session.MoveObjects: its contract only bounds the frame. The exact result is stated by `Session.QuietTick`, `Session.ObstacleHitEndsGame` and `Session.DeathFrameCollectsNothing`, and through `Motion.OnScreenPass` for frames where nothing starts below the container.
- Motion.MoveKind: its contract only bounds the result. The exact result is stated by `Motion.OnScreenPass` for passes where nothing starts below the container. Passes with removals are described by the concrete lemmas.
- Session.RunKeepsNearView: it proves the band `(-5, limit + 5)`, not `[0, limit]`. The keyboard step does not keep `[0, limit]`.
- Session.RunKeepsNearView: it covers only runs without "play again". `resetGame` shows a player dragged while hidden where it was, which can be past the shown limit until the delayed `startGame` (`Session.PlayAgainShowsStalePosition`). `Session.RunKeepsInContainer` gives the band that holds for every run.
- Session.ObstacleHitEndsGame: the exact count of one call holds only for obstacles right of the viewport's origin. An obstacle that meets the hidden player's box calls `endGame` again.

=== FILE: controls.dfy ===
/** The player controller: `playerSettings`, the keyboard flags the key
    handlers set, the per-frame keyboard step `updatePlayerPosition` and the
    touch-drag handlers. The right-hand limit `limit` is the container's
    `offsetWidth` minus the player's. */
module Controls {

  datatype PlayerState = PlayerState(
    x: real,
    speed: real,
    movingLeft: bool,
    movingRight: bool,
    touchActive: bool,
    touchStartX: real)

  const StartX: real := 180.0
  const Speed: real := 5.0

  /** `playerSettings` as the script declares it. */
  const Initial: PlayerState := PlayerState(StartX, Speed, false, false, false, 0.0)

  /** `gameContainer.offsetWidth - player.offsetWidth`. */
  function Limit(width: int, playerWidth: int): real
  {
    (width - playerWidth) as real
  }

  /** `resetPlayerPosition`: back to the start column; the key and touch
      state survive. */
  function ResetPosition(p: PlayerState): (r: PlayerState)
    ensures r.x == StartX
    ensures r.(x := p.x) == p
  {
    p.(x := 180.0)
  }

  /** The `keydown` handler. */
  function KeyDown(p: PlayerState, key: string): (r: PlayerState)
    ensures r.movingLeft == (p.movingLeft || key == "ArrowLeft")
    ensures r.movingRight == (p.movingRight || key == "ArrowRight")
    ensures r.(movingLeft := p.movingLeft, movingRight := p.movingRight) == p
  {
    var q := if key == "ArrowLeft" then p.(movingLeft := true) else p;
    if key == "ArrowRight" then q.(movingRight := true) else q
  }

  /** The `keyup` handler. */
  function KeyUp(p: PlayerState, key: string): (r: PlayerState)
    ensures r.movingLeft == (p.movingLeft && key != "ArrowLeft")
    ensures r.movingRight == (p.movingRight && key != "ArrowRight")
    ensures r.(movingLeft := p.movingLeft, movingRight := p.movingRight) == p
  {
    var q := if key == "ArrowLeft" then p.(movingLeft := false) else p;
    if key == "ArrowRight" then q.(movingRight := false) else q
  }

  /** The left half of `updatePlayerPosition`: a guard, not a clamp. */
  function StepLeft(p: PlayerState): (r: PlayerState)
    ensures r.(x := p.x) == p
    ensures p.movingLeft && p.x > 0.0 ==> r.x == p.x - p.speed
    ensures !(p.movingLeft && p.x > 0.0) ==> r == p
  {
    if p.movingLeft && p.x > 0.0 then p.(x := p.x - p.speed) else p
  }

  /** The right half of `updatePlayerPosition`: a guard, not a clamp. */
  function StepRight(p: PlayerState, limit: real): (r: PlayerState)
    ensures r.(x := p.x) == p
    ensures p.movingRight && p.x < limit ==> r.x == p.x + p.speed
    ensures !(p.movingRight && p.x < limit) ==> r == p
  {
    if p.movingRight && p.x < limit then p.(x := p.x + p.speed) else p
  }

  /** `updatePlayerPosition`: the left step, then the right step tested
      against the position the left step left. */
  function UpdatePosition(p: PlayerState, limit: real): (r: PlayerState)
    ensures r.(x := p.x) == p
    ensures !p.movingLeft && !p.movingRight ==> r == p
    ensures r.x == p.x || r.x == p.x - p.speed || r.x == p.x + p.speed
    ensures p.movingLeft && !p.movingRight ==> r.x == if 0.0 < p.x then p.x - p.speed else p.x
    ensures !p.movingLeft && p.movingRight ==> r.x == if p.x < limit then p.x + p.speed else p.x
    // with both keys held the right guard tests the x the left step left
    ensures p.movingLeft && p.movingRight && 0.0 < p.x && p.x - p.speed < limit ==> r == p
    ensures p.movingLeft && p.movingRight && 0.0 < p.x && limit <= p.x - p.speed ==>
      r.x == p.x - p.speed
    ensures p.movingLeft && p.movingRight && p.x <= 0.0 && p.x < limit ==> r.x == p.x + p.speed
    ensures p.movingLeft && p.movingRight && p.x <= 0.0 && limit <= p.x ==> r == p
  {
    StepRight(StepLeft(p), limit)
  }

  /** The band the keyboard step keeps: less than one step outside
      `[0, limit]` on either side. */
  predicate NearView(x: real, speed: real, limit: real)
  {
    -speed < x < limit + speed
  }

  /** The keyboard step never carries the player further than one step
      outside the container, and a position in the band stays in it. */
  lemma KeyboardStaysNearView(p: PlayerState, limit: real)
    requires 0.0 < p.speed && 0.0 <= limit
    requires NearView(p.x, p.speed, limit)
    ensures NearView(UpdatePosition(p, limit).x, p.speed, limit)
  {
  }

  /** The `k`-th column of the grid of whole keyboard steps. */
  function GridPoint(k: int): real
  {
    5.0 * (k as real)
  }

  /** On the grid of whole steps of the game's fixed speed, with the limit
      on the grid too, the keyboard step keeps the player inside
      `[0, limit]` and on the grid. */
  lemma KeyboardOnGridStaysInside(p: PlayerState, limit: real, i: int, j: int)
    requires p.speed == Speed
    requires p.x == GridPoint(i) && limit == GridPoint(j)
    requires 0.0 <= p.x <= limit
    ensures var r := UpdatePosition(p, limit);
      0.0 <= r.x <= limit && exists k :: r.x == GridPoint(k)
  {
    var q := StepLeft(p);
    var iq := if q.x < p.x then i - 1 else i;
    if q.x < p.x {
      assert (i as real) > 0.0;
      assert 1 <= i;
      assert q.x == GridPoint(i - 1);
    }
    assert 0.0 <= q.x <= limit;
    var r := StepRight(q, limit);
    var ir := if r.x > q.x then iq + 1 else iq;
    if r.x > q.x {
      assert (iq as real) < (j as real);
      assert iq + 1 <= j;
      assert r.x == GridPoint(iq + 1);
    }
    assert r.x == GridPoint(ir);
  }

  /** Off the grid the guard lets the player out: three units from the
      left edge with the step of five, the left step lands at -2. */
  lemma KeyboardOvershoots()
    ensures UpdatePosition(PlayerState(3.0, Speed, true, false, false, 0.0), 100.0).x == -2.0
  {
  }

  /** The `touchstart` handler on the player. */
  function TouchStart(p: PlayerState, clientX: real): (r: PlayerState)
    ensures r.touchActive && r.touchStartX == clientX
    ensures r.(touchActive := p.touchActive, touchStartX := p.touchStartX) == p
  {
    p.(touchActive := true, touchStartX := clientX)
  }

  /** `Math.max(0, Math.min(v, limit))`. */
  function Clamp(v: real, limit: real): (r: real)
    ensures 0.0 <= limit ==> 0.0 <= r <= limit
    ensures 0.0 <= v <= limit ==> r == v
    ensures v < 0.0 ==> r == 0.0
    ensures limit < v && 0.0 <= limit ==> r == limit
    ensures limit < 0.0 ==> r == 0.0
  {
    var m := if v <= limit then v else limit;
    if 0.0 >= m then 0.0 else m
  }

  /** The `touchmove` handler: while a touch is active, follow the finger's
      movement since the last event, clamped to the container. */
  function TouchMove(p: PlayerState, clientX: real, limit: real): (r: PlayerState)
    ensures !p.touchActive ==> r == p
    ensures p.touchActive ==> r.touchStartX == clientX
    ensures r.(x := p.x, touchStartX := p.touchStartX) == p
    ensures p.touchActive && 0.0 <= limit ==> 0.0 <= r.x <= limit
    ensures p.touchActive && 0.0 <= p.x + (clientX - p.touchStartX) <= limit ==>
      r.x == p.x + (clientX - p.touchStartX)
    ensures p.touchActive && p.x + (clientX - p.touchStartX) < 0.0 ==> r.x == 0.0
    ensures p.touchActive && 0.0 <= limit < p.x + (clientX - p.touchStartX) ==> r.x == limit
    ensures p.touchActive && limit < 0.0 ==> r.x == 0.0
  {
    if p.touchActive then
      p.(x := Clamp(p.x + (clientX - p.touchStartX), limit), touchStartX := clientX)
    else p
  }

  /** The `touchend` handler. */
  function TouchEnd(p: PlayerState): (r: PlayerState)
    ensures !r.touchActive
    ensures r.(touchActive := p.touchActive) == p
  {
    p.(touchActive := false)
  }

  /** A run of `touchmove` events at the given finger positions. */
  function Drag(p: PlayerState, xs: seq<real>, limit: real): PlayerState
    decreases |xs|
  {
    if |xs| == 0 then p else Drag(TouchMove(p, xs[0], limit), xs[1..], limit)
  }

  /** While the finger never pulls the player past an edge, a drag moves the
      player by exactly the finger's total movement since the touch began. */
  lemma {:induction false} DragFollowsFinger(p: PlayerState, xs: seq<real>, limit: real)
    requires p.touchActive && |xs| > 0
    requires forall i :: 0 <= i < |xs| ==> 0.0 <= p.x + (xs[i] - p.touchStartX) <= limit
    ensures Drag(p, xs, limit).x == p.x + (xs[|xs| - 1] - p.touchStartX)
    ensures Drag(p, xs, limit).touchStartX == xs[|xs| - 1]
    decreases |xs|
  {
    var q := TouchMove(p, xs[0], limit);
    if |xs| > 1 {
      assert forall i :: 0 <= i < |xs[1..]| ==> xs[1..][i] == xs[i + 1];
      DragFollowsFinger(q, xs[1..], limit);
    }
  }
}

=== FILE: difficulty.dfy ===
/** The difficulty controller: the `gameSettings` record that
    `increaseDifficulty` raises every ten seconds and `resetGameSettings`
    restores, and the spawn delay `getRandomDelay` draws from it. Speeds and
    chances are exact reals. */
module Difficulty {

  import opened Draws

  /** `spawnDelayRange`, in milliseconds. */
  datatype DelayRange = DelayRange(min: int, max: int)

  datatype Settings = Settings(
    obstacleSpeed: real,
    itemSpeed: real,
    spawnDelay: DelayRange,
    obstacleChance: real,
    itemChance: real,
    level: int,
    maxObjects: int)

  const BaseSpeed: real := 2.0
  const SpeedStep: real := 0.5
  const BaseChance: real := 0.2
  const ChanceStep: real := 0.05
  const ChanceCap: real := 0.5
  const DelayMin: int := 500
  const BaseDelayMax: int := 2000
  const DelayStep: int := 100
  const DelayFloor: int := 500
  const MaxObjects: int := 30

  /** The record as the script declares it when it loads. */
  const Initial: Settings :=
    Settings(BaseSpeed, BaseSpeed, DelayRange(DelayMin, BaseDelayMax),
             BaseChance, BaseChance, 1, MaxObjects)

  /** The settings after `n` difficulty steps from the defaults, in closed
      form: speed `2 + 0.5n`, chance `min(0.5, 0.2 + 0.05n)`, longest delay
      `max(500, 2000 - 100n)`, level `n + 1`. */
  function Scheduled(n: nat, maxObjects: int): Settings
  {
    var speed := BaseSpeed + SpeedStep * (n as real);
    var chance := MinReal(ChanceCap, BaseChance + ChanceStep * (n as real));
    Settings(speed, speed, DelayRange(DelayMin, MaxInt(DelayFloor, BaseDelayMax - DelayStep * n)),
             chance, chance, n + 1, maxObjects)
  }

  /** A creation chance after one difficulty step: capped at 0.5, never
      lowered from a value at or below the cap. */
  function RaiseChance(c: real): (r: real)
    ensures r <= ChanceCap
    ensures c <= ChanceCap ==> c <= r
    ensures c + ChanceStep <= ChanceCap ==> r == c + ChanceStep
    ensures ChanceCap <= c + ChanceStep ==> r == ChanceCap
  {
    MinReal(ChanceCap, c + ChanceStep)
  }

  /** The longest spawn delay after one difficulty step: 100 ms shorter,
      but never below 500 ms. */
  function ShortenDelay(m: int): (r: int)
    ensures DelayFloor <= r
    ensures DelayFloor <= m ==> r <= m
    ensures DelayFloor <= m - DelayStep ==> r == m - DelayStep
    ensures m - DelayStep <= DelayFloor ==> r == DelayFloor
  {
    MaxInt(DelayFloor, m - DelayStep)
  }

  /** `resetGameSettings`: back to the start of the schedule; the population
      limit `maxObjects` is not part of the reset. */
  function Reset(s: Settings): (r: Settings)
    ensures r == Scheduled(0, s.maxObjects)
  {
    s.(obstacleSpeed := 2.0, itemSpeed := 2.0, spawnDelay := DelayRange(500, 2000),
       obstacleChance := 0.2, itemChance := 0.2, level := 1)
  }

  /** `increaseDifficulty`. */
  function IncreaseDifficulty(s: Settings): (r: Settings)
    ensures r.level == s.level + 1
    ensures r.obstacleSpeed - s.obstacleSpeed == SpeedStep
    ensures r.itemSpeed - s.itemSpeed == SpeedStep
    ensures r.obstacleChance == RaiseChance(s.obstacleChance)
    ensures r.itemChance == RaiseChance(s.itemChance)
    ensures r.spawnDelay.min == s.spawnDelay.min
    ensures r.spawnDelay.max == ShortenDelay(s.spawnDelay.max)
    ensures r.maxObjects == s.maxObjects
  {
    s.(level := s.level + 1,
       obstacleSpeed := s.obstacleSpeed + 0.5,
       itemSpeed := s.itemSpeed + 0.5,
       obstacleChance := MinReal(0.5, s.obstacleChance + 0.05),
       itemChance := MinReal(0.5, s.itemChance + 0.05),
       spawnDelay := s.spawnDelay.(max := MaxInt(500, s.spawnDelay.max - 100)))
  }

  /** `n` successive difficulty steps. */
  function Raised(s: Settings, n: nat): Settings
  {
    if n == 0 then s else IncreaseDifficulty(Raised(s, n - 1))
  }

  /** One difficulty step moves one place along the schedule. */
  lemma StepAlongSchedule(n: nat, maxObjects: int)
    ensures IncreaseDifficulty(Scheduled(n, maxObjects)) == Scheduled(n + 1, maxObjects)
  {
  }

  /** After a reset and `n` difficulty steps the settings are exactly the
      closed-form schedule at level `n + 1`, whatever they were before. */
  lemma {:induction false} RaisedFromReset(s: Settings, n: nat)
    ensures Raised(Reset(s), n) == Scheduled(n, s.maxObjects)
  {
    if n > 0 {
      RaisedFromReset(s, n - 1);
      StepAlongSchedule(n - 1, s.maxObjects);
    }
  }

  /** Along the schedule the speeds grow strictly, the chances grow but stay
      within [0.2, 0.5], and the longest delay shrinks but stays within
      [500, 2000] ms. */
  lemma ScheduleMonotone(n: nat, n': nat, maxObjects: int)
    requires n <= n'
    ensures var a, b := Scheduled(n, maxObjects), Scheduled(n', maxObjects);
      && (n < n' ==> a.obstacleSpeed < b.obstacleSpeed)
      && a.obstacleChance <= b.obstacleChance
      && BaseChance <= a.obstacleChance <= ChanceCap
      && b.spawnDelay.max <= a.spawnDelay.max
      && DelayFloor <= a.spawnDelay.max <= BaseDelayMax
  {
  }

  /** `getRandomDelay(min, max)` for the draw `u`: the delay, in
      milliseconds, before a spawn loop fires again. */
  function RandomDelay(d: DelayRange, u: real): (r: int)
    requires IsDraw(u)
    ensures d.min <= d.max ==> d.min <= r <= d.max
  {
    Scale(u, d.max - d.min + 1) + d.min
  }

  /** Every delay in the range is drawn by some `u`. */
  lemma RandomDelayCovers(d: DelayRange, delay: int)
    requires d.min <= delay <= d.max
    ensures exists u :: IsDraw(u) && RandomDelay(d, u) == delay
  {
    var n := d.max - d.min + 1;
    ScaleReaches(n, delay - d.min);
    var u := ((delay - d.min) as real) / (n as real);
    assert IsDraw(u) && RandomDelay(d, u) == delay;
  }
}

=== FILE: draws.dfy ===
/** The `Math` functions the game calls. Wherever it calls `Math.random()`
    the model takes the drawn number as a parameter `u` with `0 <= u < 1`,
    the range that `Math.random()` promises. */
module Draws {

  /** A value `Math.random()` can return. */
  predicate IsDraw(u: real)
  {
    0.0 <= u < 1.0
  }

  /** `Math.floor(u * n)`: a draw scaled to the integers `0 .. n-1`. */
  function Scale(u: real, n: int): (r: int)
    requires IsDraw(u)
    ensures 1 <= n ==> 0 <= r < n
    ensures n <= 0 ==> n <= r <= 0
  {
    ProductBounds(u, n as real);
    (u * (n as real)).Floor
  }

  lemma ProductBounds(u: real, m: real)
    requires IsDraw(u)
    ensures 0.0 <= m ==> 0.0 <= u * m <= m
    ensures 0.0 < m ==> u * m < m
    ensures m <= 0.0 ==> m <= u * m <= 0.0
  {
  }

  /** Every integer below `n` is the scaled value of some draw, so the
      scaling loses no outcome. */
  lemma ScaleReaches(n: int, k: int)
    requires 0 <= k < n
    ensures IsDraw((k as real) / (n as real))
    ensures Scale((k as real) / (n as real), n) == k
  {
    var u := (k as real) / (n as real);
    assert u * (n as real) == k as real;
    assert u < 1.0 by {
      assert (k as real) < (n as real);
    }
  }

  /** `Math.min` on reals. */
  function MinReal(a: real, b: real): real
  {
    if a <= b then a else b
  }

  /** `Math.max` on reals. */
  function MaxReal(a: real, b: real): real
  {
    if a >= b then a else b
  }

  /** `Math.max` on integers. */
  function MaxInt(a: int, b: int): int
  {
    if a >= b then a else b
  }
}

=== FILE: motion.dfy ===
/** The motion and collision engine: `moveObjects` and `checkCollision`.

    `moveObjects` walks each collection with `forEach` and, inside the
    callback, removes entities with `splice(index, 1)`; a collected item is
    dropped with `itemsToCollect = itemsToCollect.filter(...)`, which makes
    the variable name a NEW array while `forEach` keeps walking the old one.
    The model keeps both arrays. Every entity of a pass is identified by its
    position in the collection as the pass began; `iter` is the array the
    `forEach` walks and `cur` the array the variable names, both as lists of
    such identities, and `aliased` says whether they are still one array.

    The first `endGame` of a pass hides the player (`playDeathAnimation`
    sets its `display` to `none`) while the walk goes on; from then on
    `getBoundingClientRect` reports the hidden player's box, a box of zero
    size at the viewport's origin, and the collision test runs against it. */
module Motion {

  import opened Draws
  import opened Spawner

  /** A box as `getBoundingClientRect` reports it. */
  datatype Rect = Rect(left: real, top: real, width: real, height: real)

  datatype Size = Size(width: real, height: real)

  /** The test of `checkCollision`, `a` the player's box and `b` the
      entity's; all four comparisons are strict. */
  predicate Overlaps(a: Rect, b: Rect)
  {
    && a.left < b.left + b.width
    && a.left + a.width > b.left
    && a.top < b.top + b.height
    && a.height + a.top > b.top
  }

  /** The point lies strictly inside the box. */
  predicate Inside(r: Rect, px: real, py: real)
  {
    r.left < px < r.left + r.width && r.top < py < r.top + r.height
  }

  /** For boxes of positive size the collision test holds exactly when the
      two open boxes share a point; boxes that only touch do not collide. */
  lemma OverlapsIffSharedPoint(a: Rect, b: Rect)
    requires 0.0 < a.width && 0.0 < a.height && 0.0 < b.width && 0.0 < b.height
    ensures Overlaps(a, b) <==> exists px, py :: Inside(a, px, py) && Inside(b, px, py)
  {
    if Overlaps(a, b) {
      var px := (MaxReal(a.left, b.left) + MinReal(a.left + a.width, b.left + b.width)) / 2.0;
      var py := (MaxReal(a.top, b.top) + MinReal(a.top + a.height, b.top + b.height)) / 2.0;
      assert Inside(a, px, py) && Inside(b, px, py);
    }
    if exists px, py :: Inside(a, px, py) && Inside(b, px, py) {
      var px, py :| Inside(a, px, py) && Inside(b, px, py);
      assert Overlaps(a, b);
    }
  }

  /** The box of an entity whose element has the given size. */
  function EntityRect(e: Entity, size: Size): Rect
  {
    Rect(e.x as real, e.top, size.width, size.height)
  }

  /** What one pass of `moveObjects` needs: the kind walked, its speed, the
      container height, the player's box while it is shown, its box once it
      is hidden, and the entity size. */
  datatype Sweep = Sweep(kind: Kind, speed: real, bottom: int, player: Rect, hiddenBox: Rect,
                         size: Size)

  /** The entity overlaps the player's box as shown. */
  predicate Hit(sw: Sweep, e: Entity)
  {
    Overlaps(sw.player, EntityRect(e, sw.size))
  }

  /** The box `getBoundingClientRect` reports for the player. */
  function PlayerRect(sw: Sweep, hidden: bool): Rect
  {
    if hidden then sw.hiddenBox else sw.player
  }

  /** The sweep whose shown box is the one the player has while `hidden`
      stays as it is. */
  function Shown(sw: Sweep, hidden: bool): Sweep
  {
    sw.(player := PlayerRect(sw, hidden))
  }

  /** The collision test of `checkCollision` with the player shown or hidden. */
  predicate HitAs(sw: Sweep, hidden: bool, e: Entity)
  {
    Overlaps(PlayerRect(sw, hidden), EntityRect(e, sw.size))
  }

  /** A box of zero size meets no entity that lies to its right or below it. */
  lemma HiddenBoxMisses(sw: Sweep, e: Entity)
    requires sw.hiddenBox.width == 0.0 && sw.hiddenBox.height == 0.0
    requires sw.hiddenBox.left <= e.x as real || sw.hiddenBox.top <= e.top
    ensures !HitAs(sw, true, e)
  {
  }

  /** One entity moved down by `speed`. */
  function Fall(e: Entity, speed: real): Entity
  {
    e.(top := e.top + speed)
  }

  function Advance(es: seq<Entity>, speed: real): seq<Entity>
  {
    seq(|es|, i requires 0 <= i < |es| => Fall(es[i], speed))
  }

  // ----- identity lists -----

  predicate Increasing(s: seq<int>)
  {
    forall i, j :: 0 <= i < j < |s| ==> s[i] < s[j]
  }

  predicate Below(s: seq<int>, n: int)
  {
    forall v :: v in s ==> 0 <= v < n
  }

  function Range(lo: int, hi: int): (r: seq<int>)
    requires lo <= hi
    ensures |r| == hi - lo
    ensures forall i :: 0 <= i < |r| ==> r[i] == lo + i
    ensures forall v :: v in r <==> lo <= v < hi
  {
    var r := seq(hi - lo, i requires 0 <= i < hi - lo => lo + i);
    assert forall v :: lo <= v < hi ==> v in r by {
      forall v | lo <= v < hi ensures v in r {
        assert r[v - lo] == v;
      }
    }
    r
  }

  /** `array.splice(k, 1)`: drop position `k`, or nothing when `k` is past
      the end. */
  function Splice(s: seq<int>, k: int): (r: seq<int>)
    requires 0 <= k
    ensures k < |s| ==> r == s[..k] + s[k + 1..]
    ensures |s| <= k ==> r == s
    ensures forall v :: v in r ==> v in s
    ensures Increasing(s) ==> Increasing(r)
    ensures Increasing(s) && k < |s| ==> forall v :: v in r <==> v in s && v != s[k]
  {
    if k < |s| then
      var r := s[..k] + s[k + 1..];
      assert forall i :: 0 <= i < |r| ==> r[i] == if i < k then s[i] else s[i + 1];
      assert forall i :: 0 <= i < |s| && i != k ==> s[i] in r by {
        forall i | 0 <= i < |s| && i != k ensures s[i] in r {
          if i < k { assert r[i] == s[i]; } else { assert r[i - 1] == s[i]; }
        }
      }
      r
    else s
  }

  /** `array.filter(x => x !== v)`. */
  function Without(s: seq<int>, v: int): (r: seq<int>)
    ensures |r| <= |s|
    ensures forall w :: w in r <==> w in s && w != v
    ensures v !in s ==> r == s
  {
    if |s| == 0 then []
    else if s[0] == v then Without(s[1..], v)
    else [s[0]] + Without(s[1..], v)
  }

  /** Every element after the first of an increasing list is larger than it. */
  lemma HeadIsLeast(s: seq<int>)
    requires Increasing(s) && |s| > 0
    ensures forall w :: w in s[1..] ==> s[0] < w
  {
    forall w | w in s[1..] ensures s[0] < w {
      var i :| 0 <= i < |s[1..]| && s[1..][i] == w;
      assert s[i + 1] == w;
    }
  }

  lemma {:induction false} WithoutIncreasing(s: seq<int>, v: int)
    requires Increasing(s)
    ensures Increasing(Without(s, v))
  {
    if |s| > 0 {
      var t := s[1..];
      assert Increasing(t);
      WithoutIncreasing(t, v);
      if s[0] != v {
        var rest := Without(t, v);
        HeadIsLeast(s);
        var r := [s[0]] + rest;
        forall i, j | 0 <= i < j < |r| ensures r[i] < r[j] {
          assert r[j] == rest[j - 1];
          if i == 0 {
            assert rest[j - 1] in rest;
          } else {
            assert r[i] == rest[i - 1];
          }
        }
      }
    }
  }

  lemma {:induction false} WithoutDropsOne(s: seq<int>, v: int)
    requires Increasing(s)
    ensures v in s ==> |Without(s, v)| == |s| - 1
  {
    if v in s {
      var t := s[1..];
      assert Increasing(t);
      if s[0] == v {
        HeadIsLeast(s);
        assert v !in t;
      } else {
        assert v in t;
        WithoutDropsOne(t, v);
      }
    }
  }

  lemma {:induction false} WithoutConcat(a: seq<int>, b: seq<int>, v: int)
    ensures Without(a + b, v) == Without(a, v) + Without(b, v)
  {
    if |a| > 0 {
      assert (a + b)[1..] == a[1..] + b;
      WithoutConcat(a[1..], b, v);
    } else {
      assert a + b == b;
    }
  }

  // ----- one pass -----

  datatype Pass = Pass(ents: seq<Entity>, iter: seq<int>, cur: seq<int>, aliased: bool,
                       score: int, endGames: nat, hidden: bool)

  predicate Valid(p: Pass)
  {
    && Below(p.iter, |p.ents|)
    && Below(p.cur, |p.ents|)
    && Increasing(p.iter)
    && Increasing(p.cur)
    && (p.aliased ==> p.iter == p.cur)
  }

  /** The state as `forEach` starts: one array, every entity in it. */
  function Begin(ents: seq<Entity>, score: int, hidden: bool): (p: Pass)
    ensures Valid(p)
  {
    Pass(ents, Range(0, |ents|), Range(0, |ents|), true, score, 0, hidden)
  }

  /** The collection the variable names. */
  function Collection(p: Pass): seq<Entity>
    requires Valid(p)
  {
    seq(|p.cur|, i requires 0 <= i < |p.cur| => assert p.cur[i] in p.cur; p.ents[p.cur[i]])
  }

  /** `checkCollision(object, type)` for the entity `j`: an obstacle that
      overlaps calls `endGame` (counted here), which hides the player; an
      item that overlaps adds 1 to the score and is filtered out of the
      variable's array. */
  function CheckCollision(p: Pass, j: int, sw: Sweep): (r: Pass)
    requires Valid(p) && 0 <= j < |p.ents|
    ensures Valid(r) && r.ents == p.ents && r.iter == p.iter
    ensures !HitAs(sw, p.hidden, p.ents[j]) ==> r == p
    ensures HitAs(sw, p.hidden, p.ents[j]) && sw.kind == Obstacle ==>
      && r.endGames == p.endGames + 1 && r.hidden
      && r.(endGames := p.endGames, hidden := p.hidden) == p
    ensures HitAs(sw, p.hidden, p.ents[j]) && sw.kind == Item ==>
      && r.score == p.score + 1
      && r.endGames == p.endGames && r.hidden == p.hidden
      && (forall v :: v in r.cur <==> v in p.cur && v != j)
      && (j in p.cur ==> |r.cur| == |p.cur| - 1)
  {
    if !HitAs(sw, p.hidden, p.ents[j]) then p
    else
      match sw.kind
      case Obstacle => p.(endGames := p.endGames + 1, hidden := true)
      case Item =>
        WithoutIncreasing(p.cur, j);
        WithoutDropsOne(p.cur, j);
        p.(score := p.score + 1, cur := Without(p.cur, j), aliased := false)
  }

  /** One call of the `forEach` callback of `moveObjects`, at index `k` of
      the walked array, for the entity `j` found there: an entity below the
      container is spliced out of the variable's array at index `k` (which
      removes `j` itself only while the two arrays are one); any other falls
      by `speed` and is checked for collision. */
  function Visit(p: Pass, k: int, sw: Sweep): (r: Pass)
    requires Valid(p) && 0 <= k < |p.iter|
    ensures Valid(r) && |r.ents| == |p.ents|
    ensures |r.cur| <= |p.cur|
    ensures p.score <= r.score <= p.score + 1
    ensures p.endGames <= r.endGames <= p.endGames + 1
    ensures r.hidden == (p.hidden || p.endGames < r.endGames)
    ensures sw.kind == Obstacle ==> r.score == p.score
    ensures sw.kind == Item ==> r.endGames == p.endGames
    ensures var j := p.iter[k]; 0 <= j < |p.ents| && p.ents[j].top > sw.bottom as real ==>
      && r.ents == p.ents && r.score == p.score && r.endGames == p.endGames && r.hidden == p.hidden
      && r.aliased == p.aliased
      && (k < |p.cur| ==> r.cur == p.cur[..k] + p.cur[k + 1..])
      && (|p.cur| <= k ==> r.cur == p.cur)
      && (p.aliased ==> j !in r.cur && r.iter == r.cur)
      && (!p.aliased ==> r.iter == p.iter)
    ensures var j := p.iter[k]; 0 <= j < |p.ents| && p.ents[j].top <= sw.bottom as real ==>
      && r.ents == p.ents[j := Fall(p.ents[j], sw.speed)]
      && r.iter == p.iter
      && (!HitAs(sw, p.hidden, r.ents[j]) ==> r == p.(ents := r.ents))
      && (HitAs(sw, p.hidden, r.ents[j]) && sw.kind == Obstacle ==>
            r.endGames == p.endGames + 1 && r.hidden && r.cur == p.cur && r.aliased == p.aliased)
      && (HitAs(sw, p.hidden, r.ents[j]) && sw.kind == Item ==>
            && r.score == p.score + 1 && !r.aliased
            && forall v :: v in r.cur <==> v in p.cur && v != j)
  {
    var j := p.iter[k];
    assert j in p.iter;
    var top := p.ents[j].top;
    if top > sw.bottom as real then
      var cur := Splice(p.cur, k);
      p.(cur := cur, iter := if p.aliased then cur else p.iter)
    else
      CheckCollision(p.(ents := p.ents[j := Fall(p.ents[j], sw.speed)]), j, sw)
  }

  /** `forEach` from index `k` on: indices up to the length the array had
      when the walk began, skipping any that are past its current end. */
  function ForEach(p: Pass, k: nat, len: nat, sw: Sweep): (r: Pass)
    requires Valid(p)
    decreases len - k
    ensures Valid(r) && |r.ents| == |p.ents|
    ensures |r.cur| <= |p.cur|
    ensures p.score <= r.score && p.endGames <= r.endGames
    ensures k <= len ==> r.score <= p.score + (len - k) && r.endGames <= p.endGames + (len - k)
    ensures r.hidden == (p.hidden || p.endGames < r.endGames)
    ensures sw.kind == Obstacle ==> r.score == p.score
    ensures sw.kind == Item ==> r.endGames == p.endGames
  {
    if len <= k then p
    else ForEach(if k < |p.iter| then Visit(p, k, sw) else p, k + 1, len, sw)
  }

  /** One of the two `forEach` passes of `moveObjects`, starting with the
      player shown or hidden. The collection never grows; an obstacle pass
      changes no score, an item pass calls no `endGame`, each visit adds at
      most one to either, and the player ends hidden exactly when it started
      hidden or `endGame` was called. */
  function MoveKind(ents: seq<Entity>, score: int, hidden: bool, sw: Sweep): (r: Pass)
    ensures Valid(r)
    ensures |Collection(r)| <= |ents|
    ensures score <= r.score <= score + |ents|
    ensures r.endGames <= |ents|
    ensures r.hidden == (hidden || 0 < r.endGames)
    ensures sw.kind == Obstacle ==> r.score == score
    ensures sw.kind == Item ==> r.endGames == 0
  {
    ForEach(Begin(ents, score, hidden), 0, |ents|, sw)
  }

  // ----- the pass when nothing leaves the container -----

  /** Identities below `k` of the fallen entities that do not overlap. */
  function Kept(adv: seq<Entity>, k: nat, sw: Sweep): (r: seq<int>)
    requires k <= |adv|
    ensures forall i :: 0 <= i < |r| ==> 0 <= r[i] < k
    ensures forall v :: v in r ==> 0 <= v < k
    ensures Increasing(r)
  {
    if k == 0 then []
    else
      var prev := Kept(adv, k - 1, sw);
      prev + (if Hit(sw, adv[k - 1]) then [] else [k - 1])
  }

  /** How many of the first `k` fallen entities overlap the player. */
  function HitCount(adv: seq<Entity>, k: nat, sw: Sweep): nat
    requires k <= |adv|
  {
    if k == 0 then 0
    else HitCount(adv, k - 1, sw) + (if Hit(sw, adv[k - 1]) then 1 else 0)
  }

  /** The first `k` fallen entities that do not overlap the player, in order. */
  function Survivors(adv: seq<Entity>, k: nat, sw: Sweep): seq<Entity>
    requires k <= |adv|
  {
    if k == 0 then []
    else Survivors(adv, k - 1, sw) + (if Hit(sw, adv[k - 1]) then [] else [adv[k - 1]])
  }

  /** Some of the first `k` fallen entities overlaps the shown player
      exactly when the count of overlaps is positive. */
  lemma {:induction false} HitCountPositive(adv: seq<Entity>, k: nat, sw: Sweep)
    requires k <= |adv|
    ensures 0 < HitCount(adv, k, sw) <==> exists i :: 0 <= i < k && Hit(sw, adv[i])
  {
    if k > 0 {
      HitCountPositive(adv, k - 1, sw);
      if Hit(sw, adv[k - 1]) {
        assert 0 <= k - 1 < k && Hit(sw, adv[k - 1]);
      }
    }
  }

  /** None of the first `k` fallen entities meets the hidden player's box. */
  predicate MissHidden(adv: seq<Entity>, k: nat, sw: Sweep)
    requires k <= |adv|
  {
    forall i :: 0 <= i < k ==> !HitAs(sw, true, adv[i])
  }

  /** The state after the callback has run at indices `0 .. k-1` when no
      entity was below the container, for a pass that began with the player
      `hidden0`. In an obstacle pass the player becomes hidden at the first
      overlap with its shown box, and `endGame` is called at that overlap and
      afterwards only for entities that meet the hidden box. In an item pass
      the player's box does not change. */
  predicate OnScreenAt(p: Pass, ents: seq<Entity>, k: nat, score0: int, hidden0: bool, sw: Sweep)
    requires k <= |ents|
  {
    var adv := Advance(ents, sw.speed);
    var sh := Shown(sw, hidden0);
    && p.ents == adv[..k] + ents[k..]
    && p.iter == Range(0, |ents|)
    && (sw.kind == Obstacle ==>
          && p.cur == Range(0, |ents|) && p.score == score0
          && p.hidden == (hidden0 || 0 < HitCount(adv, k, sw))
          && (!hidden0 ==> (p.endGames == 0 <==> HitCount(adv, k, sw) == 0))
          && (MissHidden(adv, k, sw) ==>
                p.endGames == if !hidden0 && 0 < HitCount(adv, k, sw) then 1 else 0))
    && (sw.kind == Item ==>
          && p.cur == Kept(adv, k, sh) + Range(k, |ents|)
          && p.score == score0 + HitCount(adv, k, sh)
          && p.endGames == 0
          && p.hidden == hidden0)
  }

  /** The entities fallen before index `k`, the rest as they were. */
  lemma FallPrefix(pents: seq<Entity>, ents: seq<Entity>, k: nat, speed: real)
    requires k < |ents| && pents == Advance(ents, speed)[..k] + ents[k..]
    ensures pents[k] == ents[k]
    ensures pents[k := Fall(ents[k], speed)] == Advance(ents, speed)[..k + 1] + ents[k + 1..]
  {
  }

  lemma OnScreenStep(p: Pass, ents: seq<Entity>, k: nat, score0: int, hidden0: bool, sw: Sweep)
    requires Valid(p) && k < |ents| && OnScreenAt(p, ents, k, score0, hidden0, sw)
    requires ents[k].top <= sw.bottom as real
    ensures k < |p.iter|
    ensures OnScreenAt(Visit(p, k, sw), ents, k + 1, score0, hidden0, sw)
  {
    var n := |ents|;
    var adv := Advance(ents, sw.speed);
    assert p.iter[k] == k;
    FallPrefix(p.ents, ents, k, sw.speed);
    var moved := p.(ents := p.ents[k := Fall(ents[k], sw.speed)]);
    var q := Visit(p, k, sw);
    assert q == CheckCollision(moved, k, sw);
    assert moved.ents[k] == adv[k];
    if sw.kind == Obstacle {
      assert HitCount(adv, k + 1, sw) == HitCount(adv, k, sw) + (if Hit(sw, adv[k]) then 1 else 0);
      if MissHidden(adv, k + 1, sw) {
        assert MissHidden(adv, k, sw);
        assert !HitAs(sw, true, adv[k]);
      }
    } else {
      var sh := Shown(sw, hidden0);
      assert HitAs(sw, p.hidden, adv[k]) == Hit(sh, adv[k]);
      var a := Kept(adv, k, sh);
      var tail := Range(k + 1, n);
      assert Range(k, n) == [k] + tail;
      assert p.cur == a + ([k] + tail);
      if Hit(sh, adv[k]) {
        WithoutConcat(a, [k] + tail, k);
        WithoutConcat([k], tail, k);
        assert Without([k], k) == [];
        assert q.cur == a + tail;
        assert Kept(adv, k + 1, sh) == a;
      } else {
        assert q.cur == a + ([k] + tail);
        assert a + ([k] + tail) == (a + [k]) + tail;
        assert Kept(adv, k + 1, sh) == a + [k];
      }
    }
  }

  lemma {:induction false} OnScreenWalk(p: Pass, ents: seq<Entity>, k: nat, score0: int,
                                        hidden0: bool, sw: Sweep)
    requires Valid(p) && k <= |ents| && OnScreenAt(p, ents, k, score0, hidden0, sw)
    requires forall i :: 0 <= i < |ents| ==> ents[i].top <= sw.bottom as real
    ensures OnScreenAt(ForEach(p, k, |ents|, sw), ents, |ents|, score0, hidden0, sw)
    decreases |ents| - k
  {
    if k < |ents| {
      OnScreenStep(p, ents, k, score0, hidden0, sw);
      OnScreenWalk(Visit(p, k, sw), ents, k + 1, score0, hidden0, sw);
    }
  }

  lemma {:induction false} KeptPicksSurvivors(adv: seq<Entity>, k: nat, sw: Sweep)
    requires k <= |adv|
    ensures var ks := Kept(adv, k, sw);
      seq(|ks|, i requires 0 <= i < |ks| => adv[ks[i]]) == Survivors(adv, k, sw)
  {
    if k > 0 {
      KeptPicksSurvivors(adv, k - 1, sw);
    }
  }

  /** A pass in which no entity starts below the container visits every
      entity once: each falls by `speed`.
      An obstacle pass keeps every obstacle. If the player starts shown, it
      calls `endGame` at least once exactly when some obstacle overlaps the
      player, and the player ends hidden exactly then. The first call hides
      the player, so later overlaps with the shown box call nothing: when no
      obstacle meets the hidden box, there is one call if any obstacle
      overlaps and none otherwise.
      An item pass tests against the box the player had when the pass began.
      It keeps exactly the items that do not overlap that box, in order, and
      adds one to the score per item that does. */
  lemma OnScreenPass(ents: seq<Entity>, score: int, hidden: bool, sw: Sweep)
    requires forall i :: 0 <= i < |ents| ==> ents[i].top <= sw.bottom as real
    ensures var r, adv := MoveKind(ents, score, hidden, sw), Advance(ents, sw.speed);
      && (sw.kind == Obstacle ==>
            && Collection(r) == adv && r.score == score
            && (!hidden ==>
                  && (0 < r.endGames <==> exists i :: 0 <= i < |adv| && Hit(sw, adv[i]))
                  && (r.hidden <==> exists i :: 0 <= i < |adv| && Hit(sw, adv[i])))
            && (MissHidden(adv, |adv|, sw) ==>
                  r.endGames == if !hidden && exists i :: 0 <= i < |adv| && Hit(sw, adv[i])
                                then 1 else 0))
      && (sw.kind == Item ==>
            && Collection(r) == Survivors(adv, |adv|, Shown(sw, hidden))
            && r.score == score + HitCount(adv, |adv|, Shown(sw, hidden))
            && r.endGames == 0 && r.hidden == hidden)
  {
    var adv := Advance(ents, sw.speed);
    var p := Begin(ents, score, hidden);
    assert p.ents == adv[..0] + ents[0..];
    assert Kept(adv, 0, Shown(sw, hidden)) + Range(0, |ents|) == Range(0, |ents|);
    OnScreenWalk(p, ents, 0, score, hidden, sw);
    if sw.kind == Obstacle {
      ObstaclesOnScreen(ents, score, hidden, sw);
    } else {
      ItemsOnScreen(ents, score, hidden, sw);
    }
  }

  lemma ObstaclesOnScreen(ents: seq<Entity>, score: int, hidden: bool, sw: Sweep)
    requires sw.kind == Obstacle
    requires OnScreenAt(MoveKind(ents, score, hidden, sw), ents, |ents|, score, hidden, sw)
    ensures var r, adv := MoveKind(ents, score, hidden, sw), Advance(ents, sw.speed);
      && Collection(r) == adv && r.score == score
      && (!hidden ==>
            && (0 < r.endGames <==> exists i :: 0 <= i < |adv| && Hit(sw, adv[i]))
            && (r.hidden <==> exists i :: 0 <= i < |adv| && Hit(sw, adv[i])))
      && (MissHidden(adv, |adv|, sw) ==>
            r.endGames == if !hidden && exists i :: 0 <= i < |adv| && Hit(sw, adv[i])
                          then 1 else 0)
  {
    var adv := Advance(ents, sw.speed);
    var r := MoveKind(ents, score, hidden, sw);
    assert r.ents == adv;
    HitCountPositive(adv, |ents|, sw);
  }

  lemma ItemsOnScreen(ents: seq<Entity>, score: int, hidden: bool, sw: Sweep)
    requires sw.kind == Item
    requires OnScreenAt(MoveKind(ents, score, hidden, sw), ents, |ents|, score, hidden, sw)
    ensures var r, adv := MoveKind(ents, score, hidden, sw), Advance(ents, sw.speed);
      && Collection(r) == Survivors(adv, |adv|, Shown(sw, hidden))
      && r.score == score + HitCount(adv, |adv|, Shown(sw, hidden))
      && r.endGames == 0 && r.hidden == hidden
  {
    var adv := Advance(ents, sw.speed);
    var r := MoveKind(ents, score, hidden, sw);
    assert r.ents == adv;
    assert r.cur == Kept(adv, |ents|, Shown(sw, hidden));
    KeptPicksSurvivors(adv, |ents|, Shown(sw, hidden));
  }

  lemma {:induction false} NoHitsKeepAll(adv: seq<Entity>, k: nat, sw: Sweep)
    requires k <= |adv|
    requires forall i :: 0 <= i < k ==> !Hit(sw, adv[i])
    ensures Survivors(adv, k, sw) == adv[..k]
    ensures HitCount(adv, k, sw) == 0
  {
    if k > 0 {
      NoHitsKeepAll(adv, k - 1, sw);
      assert adv[..k] == adv[..k - 1] + [adv[k - 1]];
    }
  }

  /** When nothing is below the container and nothing overlaps the box the
      player has as the pass begins, a pass moves every entity down by
      `speed` and changes nothing else. */
  lemma QuietPass(ents: seq<Entity>, score: int, hidden: bool, sw: Sweep)
    requires forall i :: 0 <= i < |ents| ==> ents[i].top <= sw.bottom as real
    requires forall i :: 0 <= i < |ents| ==> !HitAs(sw, hidden, Fall(ents[i], sw.speed))
    ensures var r := MoveKind(ents, score, hidden, sw);
      && Collection(r) == Advance(ents, sw.speed)
      && r.score == score && r.endGames == 0 && r.hidden == hidden
  {
    var adv := Advance(ents, sw.speed);
    var sh := Shown(sw, hidden);
    assert forall i :: 0 <= i < |adv| ==> !Hit(sh, adv[i]);
    OnScreenPass(ents, score, hidden, sw);
    NoHitsKeepAll(adv, |adv|, sh);
    assert adv[..|adv|] == adv;
    if sw.kind == Obstacle {
      if hidden {
        assert forall i :: 0 <= i < |adv| ==> !HitAs(sw, true, adv[i]);
        assert MissHidden(adv, |adv|, sw);
      } else {
        HitCountPositive(adv, |adv|, sw);
      }
    }
  }

  // ----- behaviour of the pass as written -----

  /** A player box far from every entity below. */
  const FarAway: Rect := Rect(1000.0, 1000.0, 10.0, 10.0)

  /** The hidden player's box when the container sits at the viewport's
      origin. */
  const Corner: Rect := Rect(0.0, 0.0, 0.0, 0.0)

  /** Two consecutive obstacles below the container: splicing the first
      moves the second to the index just visited, so the walk skips it and
      it stays in the collection, still below the container. */
  lemma SpliceSkipsNext()
    ensures var a, b := Entity(0, 101.0), Entity(100, 101.0);
      var r := MoveKind([a, b], 0, false, Sweep(Obstacle, 2.0, 100, FarAway, Corner, Size(40.0, 40.0)));
      Collection(r) == [b]
  {
    var a, b := Entity(0, 101.0), Entity(100, 101.0);
    var sw := Sweep(Obstacle, 2.0, 100, FarAway, Corner, Size(40.0, 40.0));
    var p0 := Begin([a, b], 0, false);
    assert p0.iter == [0, 1];
    var p1 := Visit(p0, 0, sw);
    assert p1.cur == [1] && p1.iter == [1];
    assert ForEach(p1, 2, 2, sw) == p1;
    assert ForEach(p1, 1, 2, sw) == p1;
    assert ForEach(p0, 0, 2, sw) == p1;
  }

  /** Two obstacles overlapping the shown player in one pass: the first
      calls `endGame`, which hides the player, so the second is tested
      against the hidden box and calls nothing. */
  lemma EndGameOnce()
    ensures var a, b := Entity(0, 50.0), Entity(20, 50.0);
      var sw := Sweep(Obstacle, 2.0, 100, Rect(0.0, 40.0, 40.0, 40.0), Corner, Size(40.0, 40.0));
      && Hit(sw, Fall(a, 2.0)) && Hit(sw, Fall(b, 2.0))
      && MoveKind([a, b], 0, false, sw).endGames == 1
      && MoveKind([a, b], 0, false, sw).hidden
  {
    var a, b := Entity(0, 50.0), Entity(20, 50.0);
    var sw := Sweep(Obstacle, 2.0, 100, Rect(0.0, 40.0, 40.0, 40.0), Corner, Size(40.0, 40.0));
    var p0 := Begin([a, b], 0, false);
    assert p0.iter == [0, 1];
    var p1 := Visit(p0, 0, sw);
    assert p1.endGames == 1 && p1.hidden;
    var p2 := Visit(p1, 1, sw);
    assert !HitAs(sw, true, Fall(b, 2.0));
    assert p2.endGames == 1;
    assert ForEach(p2, 2, 2, sw) == p2;
    assert ForEach(p1, 1, 2, sw) == p2;
  }

  /** After an item is collected the variable names a filtered copy, but the
      walk goes on over the old array with the old indices. A later item
      below the container is then spliced out at its old index, which in the
      copy is the NEXT item: the item below the container stays, and an item
      still on screen, never touched by the player, is dropped. */
  lemma StaleSpliceDropsWrongItem()
    ensures var a, b, c := Entity(0, 50.0), Entity(100, 101.0), Entity(200, 0.0);
      var sw := Sweep(Item, 2.0, 100, Rect(0.0, 40.0, 40.0, 40.0), Corner, Size(40.0, 40.0));
      var r := MoveKind([a, b, c], 0, false, sw);
      Collection(r) == [b] && r.score == 1
  {
    var a, b, c := Entity(0, 50.0), Entity(100, 101.0), Entity(200, 0.0);
    var sw := Sweep(Item, 2.0, 100, Rect(0.0, 40.0, 40.0, 40.0), Corner, Size(40.0, 40.0));
    var p0 := Begin([a, b, c], 0, false);
    assert p0.iter == [0, 1, 2] && p0.cur == [0, 1, 2];
    assert Hit(sw, Fall(a, 2.0));
    var p1 := Visit(p0, 0, sw);
    assert p1.cur == Without([0, 1, 2], 0) == [1, 2];
    assert p1.iter == [0, 1, 2] && !p1.aliased && p1.score == 1;
    var p2 := Visit(p1, 1, sw);
    assert p2.cur == [1];
    assert p2.ents[1] == b;
    assert !Hit(sw, Fall(c, 2.0));
    var p3 := Visit(p2, 2, sw);
    assert p3.cur == [1] && p3.score == 1 && p3.ents[1] == b;
    assert ForEach(p3, 3, 3, sw) == p3;
    assert ForEach(p2, 2, 3, sw) == p3;
    assert ForEach(p1, 1, 3, sw) == p3;
    assert ForEach(p0, 0, 3, sw) == p3;
    assert Collection(p3) == [b];
  }
}

=== FILE: optional.dfy ===
/** The optional-value wrapper used where a bounded model of an unbounded
    loop can run out of input. */
module Optional {

  datatype Option<+T> = None | Some(value: T)
}

=== FILE: session.dfy ===
/** The game session: the global state of the script (`score`,
    `highScore`, `obstacles`, `itemsToCollect`, `playerSettings`,
    `gameSettings`) and the callbacks that change it. Timers, DOM reads and
    `Math.random()` are parameters: a `Layout` carries the element sizes,
    and each callback that draws takes its draws. The script keeps no phase
    variable, and its spawn loops keep firing after a game ends, so `Step`
    accepts every callback at every moment; what is proved about `Run` holds
    for every order the timers and the player can produce. */
module Session {

  import opened Optional
  import opened Draws
  import Difficulty
  import Controls
  import opened Spawner
  import opened Motion

  /** What the callbacks read from the page: where the container's corner
      sits in the viewport, the container's size, the player's box (its top
      is fixed by the style sheet) and the sizes of the obstacle and item
      elements. Boxes are measured from the container's corner. */
  datatype Layout = Layout(
    originLeft: real,
    originTop: real,
    width: int,
    height: int,
    playerWidth: int,
    playerHeight: int,
    playerTop: real,
    obstacleSize: Size,
    itemSize: Size)

  /** `gameContainer.offsetWidth - player.offsetWidth`; a hidden player's
      `offsetWidth` is 0. */
  function PlayerLimit(layout: Layout, hidden: bool): real
  {
    Controls.Limit(layout.width, if hidden then 0 else layout.playerWidth)
  }

  datatype Game = Game(
    settings: Difficulty.Settings,
    player: Controls.PlayerState,
    pop: Population,
    score: int,
    highScore: int,
    playerHidden: bool)

  /** The state when the script loads, with the stored high score. */
  function Load(storedHighScore: int): Game
  {
    Game(Difficulty.Initial, Controls.Initial, Empty, 0, storedHighScore, false)
  }

  /** The state part of `startGame`; `resetPlayerPosition` also shows the
      player again. */
  function StartGame(g: Game): (r: Game)
    ensures r.score == 0 && r.pop == Empty && !r.playerHidden
    ensures r.player.x == Controls.StartX && r.settings.level == 1
    ensures r.settings == Difficulty.Scheduled(0, g.settings.maxObjects)
    ensures r.highScore == g.highScore
    ensures r.player.(x := g.player.x) == g.player
  {
    Game(Difficulty.Reset(g.settings), Controls.ResetPosition(g.player), Population([], []), 0,
         g.highScore, false)
  }

  /** Nothing of a finished session reaches the next one except the high
      score, the population limit and the key and touch state. */
  lemma StartGameForgetsSession(g1: Game, g2: Game)
    requires g1.highScore == g2.highScore
    requires g1.settings.maxObjects == g2.settings.maxObjects
    requires g1.player.(x := 0.0) == g2.player.(x := 0.0)
    ensures StartGame(g1) == StartGame(g2)
  {
  }

  /** The state part of `resetGame`, run at once on "play again": the
      collections are emptied and the player is shown again where it was;
      the delayed `startGame` is a separate callback. */
  function ResetGame(g: Game): (r: Game)
    ensures r.pop == Empty && !r.playerHidden
    ensures r.(pop := g.pop, playerHidden := g.playerHidden) == g
  {
    g.(pop := Population([], []), playerHidden := false)
  }

  /** The player's box while it is shown, as `getBoundingClientRect`
      reports it. */
  function PlayerBox(p: Controls.PlayerState, layout: Layout): Rect
  {
    Rect(p.x, layout.playerTop, layout.playerWidth as real, layout.playerHeight as real)
  }

  /** The box `getBoundingClientRect` reports for the hidden player: zero
      size, at the viewport's origin. */
  function HiddenBox(layout: Layout): Rect
  {
    Rect(-layout.originLeft, -layout.originTop, 0.0, 0.0)
  }

  function ObstacleSweep(g: Game, layout: Layout): Sweep
  {
    Sweep(Obstacle, g.settings.obstacleSpeed, layout.height, PlayerBox(g.player, layout),
          HiddenBox(layout), layout.obstacleSize)
  }

  function ItemSweep(g: Game, layout: Layout): Sweep
  {
    Sweep(Item, g.settings.itemSpeed, layout.height, PlayerBox(g.player, layout),
          HiddenBox(layout), layout.itemSize)
  }

  datatype Moved = Moved(pop: Population, score: int, endGames: nat, hidden: bool)

  /** `moveObjects`: the obstacle pass, then the item pass, which starts
      with the player hidden when the obstacle pass called `endGame`;
      `endGames` counts the calls of `endGame`. */
  function MoveObjects(g: Game, layout: Layout): (r: Moved)
    ensures |r.pop.obstacles| <= |g.pop.obstacles| && |r.pop.items| <= |g.pop.items|
    ensures g.score <= r.score <= g.score + |g.pop.items|
    ensures r.endGames <= |g.pop.obstacles|
    ensures r.hidden == (g.playerHidden || 0 < r.endGames)
  {
    var o := MoveKind(g.pop.obstacles, g.score, g.playerHidden, ObstacleSweep(g, layout));
    var i := MoveKind(g.pop.items, o.score, o.hidden, ItemSweep(g, layout));
    Moved(Population(Collection(o), Collection(i)), i.score, o.endGames, i.hidden)
  }

  datatype TickResult = TickResult(game: Game, endGames: nat)

  /** `gameLoop`: `moveObjects`, then `updatePlayerPosition`. The player box
      the collisions are tested against is the one from before the move;
      the move reads the player's width after `moveObjects`, so a frame that
      hid the player moves it against the full container width. */
  function Tick(g: Game, layout: Layout): (r: TickResult)
    ensures |r.game.pop.obstacles| <= |g.pop.obstacles| && |r.game.pop.items| <= |g.pop.items|
    ensures g.score <= r.game.score <= g.score + |g.pop.items|
    ensures r.endGames <= |g.pop.obstacles|
    ensures r.game.playerHidden == (g.playerHidden || 0 < r.endGames)
    ensures r.game.settings == g.settings && r.game.highScore == g.highScore
    ensures r.game.player.(x := g.player.x) == g.player
    ensures r.game.player == Controls.UpdatePosition(g.player, PlayerLimit(layout, r.game.playerHidden))
    ensures var m := MoveObjects(g, layout);
      r.game.pop == m.pop && r.game.score == m.score && r.endGames == m.endGames
  {
    var m := MoveObjects(g, layout);
    TickResult(
      g.(pop := m.pop, score := m.score, playerHidden := m.hidden,
         player := Controls.UpdatePosition(g.player, PlayerLimit(layout, m.hidden))),
      m.endGames)
  }

  /** A frame in which nothing is below the container and nothing will
      overlap the player's box as the frame begins moves every entity down
      by its kind's speed and changes neither the score nor the collections
      otherwise, and ends no game. */
  lemma QuietTick(g: Game, layout: Layout)
    requires forall e :: e in g.pop.obstacles ==>
      && e.top <= layout.height as real
      && !HitAs(ObstacleSweep(g, layout), g.playerHidden, Fall(e, g.settings.obstacleSpeed))
    requires forall e :: e in g.pop.items ==>
      && e.top <= layout.height as real
      && !HitAs(ItemSweep(g, layout), g.playerHidden, Fall(e, g.settings.itemSpeed))
    ensures var r := Tick(g, layout);
      && r.game.pop == Population(Advance(g.pop.obstacles, g.settings.obstacleSpeed),
                                  Advance(g.pop.items, g.settings.itemSpeed))
      && r.game.score == g.score
      && r.endGames == 0
      && r.game.playerHidden == g.playerHidden
  {
    var os, its := g.pop.obstacles, g.pop.items;
    assert forall i :: 0 <= i < |os| ==> os[i] in os;
    assert forall i :: 0 <= i < |its| ==> its[i] in its;
    QuietPass(os, g.score, g.playerHidden, ObstacleSweep(g, layout));
    QuietPass(its, g.score, g.playerHidden, ItemSweep(g, layout));
  }

  /** Whether some obstacle, after falling, overlaps the shown player. */
  predicate ObstacleHits(g: Game, layout: Layout)
  {
    var adv := Advance(g.pop.obstacles, g.settings.obstacleSpeed);
    exists i :: 0 <= i < |adv| && Hit(ObstacleSweep(g, layout), adv[i])
  }

  /** Every entity of the collection lies right of the viewport's origin. */
  predicate RightOfOrigin(es: seq<Entity>, layout: Layout)
  {
    0.0 <= layout.originLeft && forall i :: 0 <= i < |es| ==> 0 <= es[i].x
  }

  /** With the player shown and no obstacle below the container, a frame
      calls `endGame` exactly when some obstacle overlaps the player after
      falling, and the player is then hidden. The first call hides the
      player, so further overlapping obstacles call nothing: when the
      obstacles lie right of the viewport's origin, the frame calls
      `endGame` once if any obstacle overlaps and not at all otherwise. */
  lemma ObstacleHitEndsGame(g: Game, layout: Layout)
    requires forall e :: e in g.pop.obstacles ==> e.top <= layout.height as real
    ensures var r := Tick(g, layout);
      && (!g.playerHidden ==> (0 < r.endGames <==> ObstacleHits(g, layout)))
      && (!g.playerHidden ==> (r.game.playerHidden <==> ObstacleHits(g, layout)))
      && (!g.playerHidden && RightOfOrigin(g.pop.obstacles, layout) ==>
            r.endGames == if ObstacleHits(g, layout) then 1 else 0)
  {
    var os := g.pop.obstacles;
    var sw := ObstacleSweep(g, layout);
    assert forall j :: 0 <= j < |os| ==> os[j] in os;
    OnScreenPass(os, g.score, g.playerHidden, sw);
    var adv := Advance(os, g.settings.obstacleSpeed);
    if RightOfOrigin(os, layout) {
      forall i | 0 <= i < |adv| ensures !HitAs(sw, true, adv[i]) {
        HiddenBoxMisses(sw, adv[i]);
      }
      assert MissHidden(adv, |adv|, sw);
    }
  }

  /** In the frame whose obstacle pass ends the game the item pass runs
      against the hidden player: no item right of the viewport's origin is
      collected, so the score the game-over screen records stays as it was. */
  lemma DeathFrameCollectsNothing(g: Game, layout: Layout)
    requires forall e :: e in g.pop.obstacles ==> e.top <= layout.height as real
    requires forall e :: e in g.pop.items ==> e.top <= layout.height as real
    requires !g.playerHidden && ObstacleHits(g, layout)
    requires RightOfOrigin(g.pop.items, layout)
    ensures var r := Tick(g, layout);
      && 0 < r.endGames && r.game.playerHidden
      && r.game.score == g.score
      && r.game.pop.items == Advance(g.pop.items, g.settings.itemSpeed)
  {
    var os, its := g.pop.obstacles, g.pop.items;
    var sw := ObstacleSweep(g, layout);
    var isw := ItemSweep(g, layout);
    assert forall j :: 0 <= j < |os| ==> os[j] in os;
    assert forall j :: 0 <= j < |its| ==> its[j] in its;
    OnScreenPass(os, g.score, false, sw);
    var o := MoveKind(os, g.score, false, sw);
    assert o.hidden;
    forall i | 0 <= i < |its| ensures !HitAs(isw, true, Fall(its[i], g.settings.itemSpeed)) {
      HiddenBoxMisses(isw, Fall(its[i], g.settings.itemSpeed));
    }
    QuietPass(its, o.score, true, isw);
  }

  /** `increaseDifficulty`, fired by its ten-second interval. */
  function RaiseDifficulty(g: Game): (r: Game)
    ensures r.settings == Difficulty.IncreaseDifficulty(g.settings)
    ensures r.(settings := g.settings) == g
  {
    g.(settings := Difficulty.IncreaseDifficulty(g.settings))
  }

  function Chance(s: Difficulty.Settings, kind: Kind): real
  {
    match kind
    case Obstacle => s.obstacleChance
    case Item => s.itemChance
  }

  datatype SpawnResult = SpawnResult(game: Game, delay: int)

  /** `spawnObstacles` (kind `Obstacle`) and `spawnItems` (kind `Item`): try
      to create an entity when the first draw is below the kind's chance,
      then draw the delay before the next attempt. `None` means the
      placement draws ran out. */
  function Spawn(g: Game, kind: Kind, chanceDraw: real, xDraws: seq<real>, delayDraw: real,
                 layout: Layout): (r: Option<SpawnResult>)
    requires IsDraw(chanceDraw) && IsDraw(delayDraw)
    requires forall i :: 0 <= i < |xDraws| ==> IsDraw(xDraws[i])
    ensures Chance(g.settings, kind) <= chanceDraw ==> r.Some? && r.value.game == g
    ensures chanceDraw < Chance(g.settings, kind) ==>
      var c := Create(g.pop, kind, g.settings.maxObjects, xDraws, layout.width);
      && (r.Some? <==> c.Some?)
      && (r.Some? ==> r.value.game.pop == c.value)
    ensures chanceDraw < Chance(g.settings, kind) && !AtCapacity(g.pop.Of(kind), g.settings.maxObjects)
            && r.Some? ==>
      |r.value.game.pop.Of(kind)| == |g.pop.Of(kind)| + 1
    ensures r.Some? ==> r.value.game.(pop := g.pop) == g
    ensures r.Some? ==> r.value.game.pop.Of(Other(kind)) == g.pop.Of(Other(kind))
    ensures r.Some? && g.settings.spawnDelay.min <= g.settings.spawnDelay.max ==>
      g.settings.spawnDelay.min <= r.value.delay <= g.settings.spawnDelay.max
    ensures r.None? ==>
      && chanceDraw < Chance(g.settings, kind)
      && !AtCapacity(g.pop.Of(kind), g.settings.maxObjects)
      && forall i :: 0 <= i < |xDraws| ==> !Vacant(g.pop, DrawX(xDraws[i], layout.width))
  {
    var created :=
      if chanceDraw < Chance(g.settings, kind)
      then Create(g.pop, kind, g.settings.maxObjects, xDraws, layout.width)
      else Some(g.pop);
    match created
    case None => None
    case Some(pop) => Some(SpawnResult(g.(pop := pop), Difficulty.RandomDelay(g.settings.spawnDelay, delayDraw)))
  }

  /** The high-score update of `showGameOverScreen`: the high score becomes
      the score only when the score is strictly higher. */
  function RecordHighScore(score: int, best: int): (r: int)
    ensures best <= r && score <= r
    ensures r == best || r == score
    ensures r != best ==> best < score
  {
    if score > best then score else best
  }

  function ShowGameOver(g: Game): (r: Game)
    ensures r.highScore == RecordHighScore(g.score, g.highScore)
    ensures r.(highScore := g.highScore) == g
  {
    g.(highScore := RecordHighScore(g.score, g.highScore))
  }

  /** The high score after sessions that ended with the given scores. */
  function AfterSessions(best: int, scores: seq<int>): int
    decreases |scores|
  {
    if |scores| == 0 then best else AfterSessions(RecordHighScore(scores[0], best), scores[1..])
  }

  /** The high score after any run of sessions is the largest of the stored
      value and the sessions' scores. */
  lemma {:induction false} HighScoreIsBest(best: int, scores: seq<int>)
    ensures best <= AfterSessions(best, scores)
    ensures forall i :: 0 <= i < |scores| ==> scores[i] <= AfterSessions(best, scores)
    ensures AfterSessions(best, scores) == best ||
            exists i :: 0 <= i < |scores| && AfterSessions(best, scores) == scores[i]
    decreases |scores|
  {
    if |scores| > 0 {
      var b := RecordHighScore(scores[0], best);
      HighScoreIsBest(b, scores[1..]);
      assert forall i :: 1 <= i < |scores| ==> scores[1..][i - 1] == scores[i];
      var r := AfterSessions(best, scores);
      if r != b {
        var i :| 0 <= i < |scores[1..]| && r == scores[1..][i];
        assert r == scores[i + 1];
      } else if b != best {
        assert r == scores[0];
      }
    }
  }

  // ----- every callback, in any order -----

  datatype Event =
    | PlayPressed
    | PlayAgainPressed
    | Frame
    | DifficultyTimer
    | SpawnTimer(kind: Kind, chanceDraw: real, xDraws: seq<real>, delayDraw: real)
    | GameOverShown
    | KeyPressed(key: string)
    | KeyReleased(key: string)
    | TouchBegan(clientX: real)
    | TouchMoved(clientX: real)
    | TouchEnded

  /** Every draw an event carries is one `Math.random()` can return. */
  predicate Admissible(ev: Event)
  {
    ev.SpawnTimer? ==>
      IsDraw(ev.chanceDraw) && IsDraw(ev.delayDraw) &&
      forall i :: 0 <= i < |ev.xDraws| ==> IsDraw(ev.xDraws[i])
  }

  /** One callback: the play button or the delayed restart (`startGame`),
      "play again" (`resetGame`), a game-loop frame, a difficulty tick, a
      spawn attempt, the game-over reveal, a key or a touch event. The two
      spawn attempts `startGame` makes itself are `SpawnTimer` events that
      follow it. */
  function Step(g: Game, layout: Layout, ev: Event): Option<Game>
    requires Admissible(ev)
  {
    match ev
    case PlayPressed => Some(StartGame(g))
    case PlayAgainPressed => Some(ResetGame(g))
    case Frame => Some(Tick(g, layout).game)
    case DifficultyTimer => Some(RaiseDifficulty(g))
    case SpawnTimer(kind, c, xs, d) =>
      (match Spawn(g, kind, c, xs, d, layout)
       case None => None
       case Some(s) => Some(s.game))
    case GameOverShown => Some(ShowGameOver(g))
    case KeyPressed(key) => Some(g.(player := Controls.KeyDown(g.player, key)))
    case KeyReleased(key) => Some(g.(player := Controls.KeyUp(g.player, key)))
    case TouchBegan(x) => Some(g.(player := Controls.TouchStart(g.player, x)))
    case TouchMoved(x) =>
      Some(g.(player := Controls.TouchMove(g.player, x, PlayerLimit(layout, g.playerHidden))))
    case TouchEnded => Some(g.(player := Controls.TouchEnd(g.player)))
  }

  function Run(g: Game, layout: Layout, evs: seq<Event>): Option<Game>
    requires forall i :: 0 <= i < |evs| ==> Admissible(evs[i])
    decreases |evs|
  {
    if |evs| == 0 then Some(g)
    else
      match Step(g, layout, evs[0])
      case None => None
      case Some(g') =>
        assert forall i :: 1 <= i < |evs| ==> evs[1..][i - 1] == evs[i];
        Run(g', layout, evs[1..])
  }

  /** The population limit per kind, `maxObjects / 2`. */
  const PerKind: int := Difficulty.MaxObjects / 2

  /** What holds of the state at every moment: the settings sit on the
      difficulty schedule at their level, no kind holds more than 15
      entities, the score is not negative and the player's speed is fixed. */
  predicate Wf(g: Game)
  {
    && 1 <= g.settings.level
    && g.settings == Difficulty.Scheduled(g.settings.level - 1, Difficulty.MaxObjects)
    && |g.pop.obstacles| <= PerKind
    && |g.pop.items| <= PerKind
    && 0 <= g.score
    && g.player.speed == Controls.Speed
  }

  lemma LoadIsWf(storedHighScore: int)
    ensures Wf(Load(storedHighScore))
  {
  }

  lemma SpawnKeepsWf(g: Game, kind: Kind, c: real, xs: seq<real>, d: real, layout: Layout)
    requires Wf(g)
    requires IsDraw(c) && IsDraw(d) && forall i :: 0 <= i < |xs| ==> IsDraw(xs[i])
    ensures Spawn(g, kind, c, xs, d, layout).Some? ==>
      Wf(Spawn(g, kind, c, xs, d, layout).value.game)
  {
  }

  lemma StepKeepsWf(g: Game, layout: Layout, ev: Event)
    requires Wf(g) && Admissible(ev)
    requires Step(g, layout, ev).Some?
    ensures Wf(Step(g, layout, ev).value)
  {
  }

  /** Whatever the order of callbacks, the settings stay on the difficulty
      schedule (speed `2 + 0.5(L-1)`, chance `min(0.5, 0.2 + 0.05(L-1))`,
      longest delay `max(500, 2000 - 100(L-1))` at level `L`), and no kind
      ever holds more than 15 entities. */
  lemma {:induction false} RunKeepsWf(g: Game, layout: Layout, evs: seq<Event>)
    requires Wf(g)
    requires forall i :: 0 <= i < |evs| ==> Admissible(evs[i])
    requires Run(g, layout, evs).Some?
    ensures Wf(Run(g, layout, evs).value)
    decreases |evs|
  {
    if |evs| > 0 {
      StepKeepsWf(g, layout, evs[0]);
      var g' := Step(g, layout, evs[0]).value;
      assert forall i :: 1 <= i < |evs| ==> evs[1..][i - 1] == evs[i];
      RunKeepsWf(g', layout, evs[1..]);
    }
  }

  /** The high score never goes down, whatever the order of callbacks. */
  lemma {:induction false} RunKeepsHighScore(g: Game, layout: Layout, evs: seq<Event>)
    requires forall i :: 0 <= i < |evs| ==> Admissible(evs[i])
    requires Run(g, layout, evs).Some?
    ensures g.highScore <= Run(g, layout, evs).value.highScore
    decreases |evs|
  {
    if |evs| > 0 {
      var g' := Step(g, layout, evs[0]).value;
      assert forall i :: 1 <= i < |evs| ==> evs[1..][i - 1] == evs[i];
      RunKeepsHighScore(g', layout, evs[1..]);
    }
  }

  /** The container is wide enough for the player and for the start
      column. */
  predicate Roomy(layout: Layout)
  {
    && 0 <= layout.playerWidth
    && 0.0 <= PlayerLimit(layout, false)
    && Controls.StartX < PlayerLimit(layout, false) + Controls.Speed
  }

  /** Less than one step outside `[0, limit]`, with the limit the player's
      current width gives. */
  predicate NearView(g: Game, layout: Layout)
  {
    Controls.NearView(g.player.x, Controls.Speed, PlayerLimit(layout, g.playerHidden))
  }

  /** Less than one step outside the container. */
  predicate InContainer(g: Game, layout: Layout)
  {
    Controls.NearView(g.player.x, Controls.Speed, layout.width as real)
  }

  /** Every callback keeps the player near the view, except "play again"
      while the player is hidden: `resetGame` shows the player again where
      it was, and a drag while it was hidden may have taken it past the
      shown player's limit. */
  lemma StepKeepsNearView(g: Game, layout: Layout, ev: Event)
    requires Wf(g) && Roomy(layout) && NearView(g, layout) && Admissible(ev)
    requires Step(g, layout, ev).Some?
    ensures !ev.PlayAgainPressed? || !g.playerHidden ==> NearView(Step(g, layout, ev).value, layout)
  {
  }

  lemma StepKeepsInContainer(g: Game, layout: Layout, ev: Event)
    requires Wf(g) && Roomy(layout) && InContainer(g, layout) && Admissible(ev)
    requires Step(g, layout, ev).Some?
    ensures InContainer(Step(g, layout, ev).value, layout)
  {
  }

  /** The keyboard step does not clamp, so the player can leave
      `[0, limit]`; but in any order of callbacks without "play again", it
      never gets a full step (5 units) outside it. */
  lemma {:induction false} RunKeepsNearView(g: Game, layout: Layout, evs: seq<Event>)
    requires Wf(g) && Roomy(layout) && NearView(g, layout)
    requires forall i :: 0 <= i < |evs| ==> Admissible(evs[i])
    requires Run(g, layout, evs).Some?
    ensures (forall i :: 0 <= i < |evs| ==> !evs[i].PlayAgainPressed?) ==>
      NearView(Run(g, layout, evs).value, layout)
    decreases |evs|
  {
    if |evs| > 0 && forall i :: 0 <= i < |evs| ==> !evs[i].PlayAgainPressed? {
      StepKeepsNearView(g, layout, evs[0]);
      StepKeepsWf(g, layout, evs[0]);
      var g' := Step(g, layout, evs[0]).value;
      assert forall i :: 1 <= i < |evs| ==> evs[1..][i - 1] == evs[i];
      RunKeepsNearView(g', layout, evs[1..]);
    }
  }

  /** In any order of callbacks the player never gets a full step outside
      the container. */
  lemma {:induction false} RunKeepsInContainer(g: Game, layout: Layout, evs: seq<Event>)
    requires Wf(g) && Roomy(layout) && InContainer(g, layout)
    requires forall i :: 0 <= i < |evs| ==> Admissible(evs[i])
    requires Run(g, layout, evs).Some?
    ensures InContainer(Run(g, layout, evs).value, layout)
    decreases |evs|
  {
    if |evs| > 0 {
      StepKeepsInContainer(g, layout, evs[0]);
      StepKeepsWf(g, layout, evs[0]);
      var g' := Step(g, layout, evs[0]).value;
      assert forall i :: 1 <= i < |evs| ==> evs[1..][i - 1] == evs[i];
      RunKeepsInContainer(g', layout, evs[1..]);
    }
  }

  /** A drag while the player is hidden may take it to the container's
      right edge, and "play again" shows it there, past the shown player's
      limit by its whole width. */
  lemma PlayAgainShowsStalePosition()
    ensures var layout := Layout(0.0, 0.0, 400, 600, 40, 40, 500.0, Size(40.0, 40.0), Size(40.0, 40.0));
      var g := Load(0).(playerHidden := true,
                        player := Controls.Initial.(touchActive := true, touchStartX := 0.0));
      var r := Run(g, layout, [TouchMoved(300.0), PlayAgainPressed]);
      && NearView(g, layout)
      && r.Some? && r.value.player.x == 400.0 && !r.value.playerHidden
      && !NearView(r.value, layout)
  {
    var layout := Layout(0.0, 0.0, 400, 600, 40, 40, 500.0, Size(40.0, 40.0), Size(40.0, 40.0));
    var g := Load(0).(playerHidden := true,
                      player := Controls.Initial.(touchActive := true, touchStartX := 0.0));
    var g1 := Step(g, layout, TouchMoved(300.0)).value;
    assert g1.player.x == 400.0;
    var evs := [TouchMoved(300.0), PlayAgainPressed];
    assert evs[1..] == [PlayAgainPressed];
    assert Run(g, layout, evs) == Run(g1, layout, [PlayAgainPressed]);
    assert [PlayAgainPressed][1..] == [];
  }

  /** The frame that ends the game moves the player against the full
      container width: at 354, with the shown player's limit at 350, a
      right step still happens, to 359. */
  lemma DeathFrameStepsPastLimit()
    ensures var layout := Layout(0.0, 0.0, 400, 600, 50, 40, 40.0, Size(40.0, 40.0), Size(40.0, 40.0));
      var g := Load(0).(player := Controls.Initial.(x := 354.0, movingRight := true),
                        pop := Population([Entity(354, 50.0)], []));
      var r := Tick(g, layout);
      && PlayerLimit(layout, false) == 350.0
      && r.endGames == 1 && r.game.playerHidden && r.game.player.x == 359.0
  {
    var layout := Layout(0.0, 0.0, 400, 600, 50, 40, 40.0, Size(40.0, 40.0), Size(40.0, 40.0));
    var g := Load(0).(player := Controls.Initial.(x := 354.0, movingRight := true),
                      pop := Population([Entity(354, 50.0)], []));
    ObstacleHitEndsGame(g, layout);
    var adv := Advance(g.pop.obstacles, g.settings.obstacleSpeed);
    assert adv[0] == Entity(354, 52.0);
    assert Hit(ObstacleSweep(g, layout), adv[0]);
    assert ObstacleHits(g, layout);
  }
}

=== FILE: spawner.dfy ===
/** The entity spawner: `isPositionValid`, `createObstacle` and
    `createItem`. An entity is the pair of numbers its element carries in
    `style.left` and `style.top`; the element itself is left out. */
module Spawner {

  import opened Optional
  import opened Draws

  /** A falling entity: the integer left edge it was placed at and its
      current top edge. */
  datatype Entity = Entity(x: int, top: real)

  datatype Kind = Obstacle | Item

  function Other(kind: Kind): Kind
  {
    match kind
    case Obstacle => Item
    case Item => Obstacle
  }

  /** The two live collections, `obstacles` and `itemsToCollect`. */
  datatype Population = Population(obstacles: seq<Entity>, items: seq<Entity>)
  {
    function Of(kind: Kind): seq<Entity>
    {
      match kind
      case Obstacle => obstacles
      case Item => items
    }

    function With(kind: Kind, es: seq<Entity>): (r: Population)
      ensures r.Of(kind) == es
      ensures r.Of(Other(kind)) == Of(Other(kind))
    {
      match kind
      case Obstacle => this.(obstacles := es)
      case Item => this.(items := es)
    }
  }

  const Empty: Population := Population([], [])

  /** New entities start at `top = -30`, just above the container. */
  const SpawnY: int := -30
  /** The default `buffer` of `isPositionValid`. */
  const Buffer: int := 60
  /** The width the placement draw keeps clear of the right edge. */
  const SpawnMargin: int := 40

  function Abs(n: int): nat
  {
    if n < 0 then -n else n
  }

  /** `parseInt` of the text `${v}px` that `style.top` holds: the digits
      after the decimal point are dropped, so the value is truncated toward
      zero. */
  function ParsePx(v: real): (n: int)
    ensures 0.0 <= v ==> n as real <= v < n as real + 1.0
    ensures v < 0.0 ==> n as real - 1.0 < v <= n as real
  {
    if 0.0 <= v then v.Floor else -((-v).Floor)
  }

  /** The per-axis test of `isPositionValid`: entity `e` lies closer than
      `buffer` to the point on both axes. */
  predicate Crowds(e: Entity, x: int, y: int, buffer: int)
  {
    Abs(x - e.x) < buffer && Abs(y - ParsePx(e.top)) < buffer
  }

  /** The scan of `isPositionValid`, front to back, stopping at the first
      entity that crowds the point. */
  function Clear(es: seq<Entity>, x: int, y: int, buffer: int): (ok: bool)
    ensures ok <==> forall i :: 0 <= i < |es| ==> !Crowds(es[i], x, y, buffer)
  {
    if |es| == 0 then true
    else !Crowds(es[0], x, y, buffer) && Clear(es[1..], x, y, buffer)
  }

  /** `isPositionValid(newX, newY, buffer)`: false exactly when some live
      obstacle or item crowds the point on both axes. */
  function IsPositionValid(pop: Population, x: int, y: int, buffer: int): (ok: bool)
    ensures !ok <==>
      || (exists i :: 0 <= i < |pop.obstacles| && Crowds(pop.obstacles[i], x, y, buffer))
      || (exists i :: 0 <= i < |pop.items| && Crowds(pop.items[i], x, y, buffer))
  {
    var all := pop.obstacles + pop.items;
    assert forall i :: 0 <= i < |pop.obstacles| ==> all[i] == pop.obstacles[i];
    assert forall i :: 0 <= i < |pop.items| ==> all[|pop.obstacles| + i] == pop.items[i];
    Clear(all, x, y, buffer)
  }

  /** `Math.floor(Math.random() * (gameContainer.offsetWidth - 40))`. */
  function DrawX(u: real, width: int): (x: int)
    requires IsDraw(u)
    ensures SpawnMargin < width ==> 0 <= x < width - SpawnMargin
  {
    Scale(u, width - SpawnMargin)
  }

  predicate Vacant(pop: Population, x: int)
  {
    IsPositionValid(pop, x, SpawnY, Buffer)
  }

  /** The `do ... while (!isPositionValid(...))` loop run on a finite list
      of draws: the first draw whose position is valid, or `None` when
      every supplied draw is rejected (the game would keep drawing). */
  function Place(pop: Population, draws: seq<real>, width: int): (r: Option<int>)
    requires forall i :: 0 <= i < |draws| ==> IsDraw(draws[i])
    ensures r.Some? ==> Vacant(pop, r.value)
    ensures r.Some? && SpawnMargin < width ==> 0 <= r.value < width - SpawnMargin
    ensures r.Some? ==>
      exists i :: 0 <= i < |draws| && r.value == DrawX(draws[i], width) &&
        forall j :: 0 <= j < i ==> !Vacant(pop, DrawX(draws[j], width))
    ensures r.None? <==> forall i :: 0 <= i < |draws| ==> !Vacant(pop, DrawX(draws[i], width))
  {
    if |draws| == 0 then None
    else
      var x := DrawX(draws[0], width);
      if Vacant(pop, x) then Some(x)
      else
        var rest := Place(pop, draws[1..], width);
        assert forall i :: 1 <= i < |draws| ==> draws[1..][i - 1] == draws[i];
        rest
  }

  /** The population limit of `createObstacle` / `createItem`: a kind is
      full once it holds `maxObjects / 2` entities. */
  predicate AtCapacity(es: seq<Entity>, maxObjects: int)
  {
    |es| as real >= (maxObjects as real) / 2.0
  }

  /** `createObstacle` (kind `Obstacle`) and `createItem` (kind `Item`). */
  function Create(pop: Population, kind: Kind, maxObjects: int, draws: seq<real>, width: int)
    : (r: Option<Population>)
    requires forall i :: 0 <= i < |draws| ==> IsDraw(draws[i])
    ensures AtCapacity(pop.Of(kind), maxObjects) ==> r == Some(pop)
    ensures !AtCapacity(pop.Of(kind), maxObjects) ==>
      (r.None? <==> forall i :: 0 <= i < |draws| ==> !Vacant(pop, DrawX(draws[i], width)))
    ensures r.Some? && !AtCapacity(pop.Of(kind), maxObjects) ==>
      var es, es' := pop.Of(kind), r.value.Of(kind);
      && |es'| == |es| + 1
      && es'[..|es|] == es
      && es'[|es|].top == SpawnY as real
      && Vacant(pop, es'[|es|].x)
      && (SpawnMargin < width ==> 0 <= es'[|es|].x < width - SpawnMargin)
    ensures r.Some? ==> r.value.Of(Other(kind)) == pop.Of(Other(kind))
    ensures r.Some? && maxObjects % 2 == 0 && |pop.Of(kind)| <= maxObjects / 2 ==>
      |r.value.Of(kind)| <= maxObjects / 2
  {
    if AtCapacity(pop.Of(kind), maxObjects) then Some(pop)
    else
      match Place(pop, draws, width)
      case None => None
      case Some(x) => Some(pop.With(kind, pop.Of(kind) + [Entity(x, SpawnY as real)]))
  }
}
